=== FILE: README.md ===
# express-rate-limit: a Dafny model of the counter store and the limiter

This project models the core of express-rate-limit (the TypeScript version in
`src/`), a per-key request throttle for Express:

- **The in-memory counter store** (`src/memory-store.ts`). It is a table from
  keys to hit counts, plus one `resetTime` shared by every key (a fixed window
  for the whole store). `incr` creates a key at 1 or adds one, and reports the
  new count with the shared reset time. `decrement` takes one back only from a
  positive count. `resetKey` forgets one key. `resetAll` empties the table and
  starts a new window. It is modelled as the class `Store.MemoryStore` over a
  `map<string, nat>`, with its effects specified by the functions `Bumped`,
  `Lowered` and `LoweredTimes`. `Window` replays runs of store calls to state
  what `incr` reports over a window.
- **Construction of the limiter** (`RateLimit` in `src/express-rate-limit.ts`).
  The caller's options object is merged over the defaults, as
  `Object.assign` does (a map union, the caller's keys winning). An in-memory
  store is created when no store is given. A store lacking `incr` or
  `resetKey` is refused, and so is one lacking `decrement` when
  `skipFailedRequests` is set. The options removed in version 3 (`global`,
  `delayMs`, `delayAfter`) are refused when present as keys, checked in that
  order. This is module `Options`.
- **The per-request decision** (`rateLimit`). These are pure functions in
  `Decision`: the skip check, key resolution, the store increment, max
  resolution, the record `{limit, current, remaining, resetTime}`, the header
  values, `onLimitReached` and the denial. `Middleware.HandleRequest` runs the
  same pipeline against the limiter's own store, and `Middleware.ResetKey` /
  `ResetIp` are the bound `resetKey` functions.
- **The compensating decrement** (`Compensation`). The listeners registered
  on the response when failed or successful requests are not to be counted,
  as a class `Listeners` holding the per-request `decremented` flag.
  `Listeners.Run` feeds any sequence of `finish` / `close` / `error` signals
  to the listeners. Its contract ties the store's new table to the pure
  functions `GuardedDecrements` and `SuccessDecrements`, whose own
  contracts and lemmas bound the decrements.

Time is an integer number of milliseconds passed in (`now`, `nowMs`); the
clock is never read. The callbacks a caller supplies (`skip`, `keyGenerator`,
a `max` function, `onLimitReached`) and a custom store's `incr` are inputs:
each is a value that either succeeds or throws.

Where the documented behaviour and the code disagree, the model follows the
code:

- An exception thrown by `skip` is raised before the `try` block
  (src/express-rate-limit.ts:67-69). It escapes the middleware rather than
  reaching `next(e)`. This is the verdict `Escaped`.
- `onLimitReached` is documented as called the first time `max` is exceeded.
  It fires when `current == max + 1`. With increments only and a max that is
  the same for every request (a number, or a function that always returns the
  same value), that happens at most once per key per window
  (`Window.LimitReachedAtMostOnce`).
  With `skipFailedRequests` set, a denied request ends with status 429, which
  is at least 400, so it is uncounted again. The next request then reports
  `max + 1` once more and `onLimitReached` fires again in the same window
  (`Window.CompensationRepeatsLimitCount`).
- A `max` function is called again for every request
  (src/express-rate-limit.ts:82), and `current == max + 1` is tested against
  that request's answer (src/express-rate-limit.ts:149). A function whose
  answer changes can therefore make `onLimitReached` fire several times in one
  window. With answers 2 then 3, the third and fourth hits both reach the limit
  (`Window.VaryingMaxReachesLimitEachTime`).
- A store lacking `decrement` is refused only when `skipFailedRequests` is
  set, not when only `skipSuccessfulRequests` is set
  (`Options.MissingDecrementRefusedOnlyForFailedRequests`).
- A negative `max` is truthy, so every request with a count above it is
  denied. Only `max == 0` disables limiting.
- The comment at src/express-rate-limit.ts:58 says that a removed option set
  to 0 does not trigger the check. The code tests `key in options`, so the
  option is refused whatever its value, 0 included (`Options.RateLimit`).
- `resetAll` sets the reset time to `now + windowMs` at the moment it runs.
  There is no separate monotonic counter.

## Model

| member | source | states |
|---|---|---|
| `Store.NextResetTime` | src/memory-store.ts:1-5 | the next reset is exactly `windowMs` after `now`, and not before `now` for a non-negative window |
| `Store.Bumped` | src/memory-store.ts:19-24 | after `incr(key)` the key's count is its old count (0 if absent or zero) plus one; the key set gains only `key`; every other key keeps its count |
| `Store.Lowered` | src/memory-store.ts:29-32 | after `decrement(key)` a positive count is one lower and a zero or absent one stays 0; no key is added or removed; other keys are unchanged |
| `Store.LoweredTimes` | src/memory-store.ts:29-32 | `n` decrements lower the count by `n`, floored at 0; other keys are unchanged |
| `Store.LoweredTimesIsRepeatedDecrement` | src/memory-store.ts:29-32 | no decrement leaves the table as it is, and `n + 1` decrements are one more `decrement` after `n` |
| `Store.LoweredTimesAdd` | src/memory-store.ts:29-32 | `a` decrements followed by `b` decrements leave the same table as `a + b` decrements |
| `Store.DecrementUndoesIncr` | src/memory-store.ts:19-32 | a decrement after an increment gives every key back the count it had |
| `Store.ResetKeyThenIncrReportsOne` | src/memory-store.ts:40-42 | after `resetKey(key)` the next `incr(key)` reports 1 |
| `Store.MemoryStore.constructor` | src/memory-store.ts:7-12 | the store starts with an empty table and `resetTime == now + windowMs` |
| `Store.MemoryStore.Incr` | src/memory-store.ts:19-27 | the table becomes `Bumped(old table, key)`; the reported count is the key's new count (old + 1); the reported reset time is the store's unchanged `resetTime`, shared by every key |
| `Store.MemoryStore.Decrement` | src/memory-store.ts:29-32 | the table becomes `Lowered(old table, key)`, so no count goes negative; the reset time is untouched |
| `Store.MemoryStore.ResetAll` | src/memory-store.ts:34-38 | the table is empty and `resetTime == now + windowMs` |
| `Store.MemoryStore.ResetKey` | src/memory-store.ts:40-42 | `key` is removed; every other key keeps its count; the reset time is untouched |
| `Window.Reports` | src/memory-store.ts:19-42 | a run of store calls yields at most one report per call, and every count `incr` reports is at least 1 |
| `Window.ReportsMatchCalls` | src/memory-store.ts:19-27 | with increments only, there is one report per call, for that call's key |
| `Window.ReportsExceedStart` | src/memory-store.ts:19-27 | with increments only, every reported count is above the key's count at the start of the run |
| `Window.ReportsIncrease` | src/memory-store.ts:19-27 | with increments only, the counts reported for one key strictly increase: no lost update, no repeated count |
| `Window.NthIncrReportsN` | src/memory-store.ts:19-27 | for a key not yet counted, the i-th of n successive increments reports i |
| `Window.LimitReachedAtMostOnce` | src/express-rate-limit.ts:149-151 | with increments only, at most one call per key reports `max + 1`, so for a max that is the same for every request (a number, or a function that always returns the same value) `onLimitReached` fires at most once per key per window |
| `Window.VaryingMaxReachesLimitEachTime` | src/express-rate-limit.ts:82-151 | when a `max` function answers one below each request's count, every request after the first reaches the limit, so `onLimitReached` fires repeatedly in one window |
| `Window.CompensationRepeatsLimitCount` | src/express-rate-limit.ts:124-151 | a decrement between increments makes the store report 3 twice (1, 2, 3, 3), so with max 2 the limit-reached count recurs |
| `Options.Defaults` | src/express-rate-limit.ts:19-42 | the defaults are well typed and do not include a store |
| `Options.Merge` | src/express-rate-limit.ts:19-42 | the merged keys are the defaults' plus the caller's; every caller value wins; every other default stays |
| `Options.Resolve` | src/express-rate-limit.ts:19-42 | the settings read from merged options: `max` is resolved per request exactly when the option is a function, and a numeric `max` is kept as given |
| `Options.DefaultSettings` | src/express-rate-limit.ts:19-42 | with no options: `windowMs = 60000`, `max = 5`, `statusCode = 429`, legacy headers on, draft headers off, no request skipping |
| `Options.CallerOverridesDefaults` | src/express-rate-limit.ts:19-42 | each resolved setting is the caller's value when given and the default otherwise; a function `max` is resolved per request |
| `Options.StoreIsValid` | src/express-rate-limit.ts:48-55 | a valid store has `incr` and `resetKey`, and `decrement` too when `skipFailedRequests` is on; a store with all three is valid, and one with `incr` and `resetKey` is valid when `skipFailedRequests` is off |
| `Options.MissingDecrementRefusedOnlyForFailedRequests` | src/express-rate-limit.ts:48-55 | a store with `incr` and `resetKey` but no `decrement` is valid exactly when `skipFailedRequests` is off |
| `Options.MergeKeepsCallerKeys` | src/express-rate-limit.ts:19-64 | the store and the removed options have no default, so each is present after the merge exactly when the caller gave it |
| `Options.RemovedMessage` | src/express-rate-limit.ts:60-62 | the error text `The <key> option was removed from express-rate-limit v3.` holds the option's name after `The ` and is 51 characters longer than it |
| `Options.RemovedMessageNamesOption` | src/express-rate-limit.ts:60-62 | two removed options give the same message only if they are the same option, so the message identifies the option |
| `Options.FindRemovedOption` | src/express-rate-limit.ts:57-64 | nothing is found iff no removed option is a key; otherwise the result is a present key that is the first of `global`, `delayMs`, `delayAfter` to be present |
| `Options.CheckOptions` | src/express-rate-limit.ts:47-64 | no error iff the store is valid and no removed option is present; an invalid store gives "The store is not valid." ahead of any removed option; otherwise the error names the first of `global`, `delayMs`, `delayAfter` present in the merged options |
| `Options.RateLimit` | src/express-rate-limit.ts:18-64 | construction succeeds iff the chosen store is valid for the merged `skipFailedRequests` and no removed option is given; the error cases and messages as above; on success the settings are the merged ones, and without a store option a fresh empty in-memory store over the merged window, resetting at `now + windowMs` |
| `Decision.MakeInfo` | src/express-rate-limit.ts:84-89 | `limit` and `current` are the resolved max and the store's count; `remaining` is `max(limit - current, 0)`: non-negative, at least `limit - current`, equal to one of them, and at most `limit` for non-negative counts |
| `Decision.CeilSeconds` | src/express-rate-limit.ts:98-101 | the result is the least whole number of seconds covering the milliseconds (`Math.ceil(ms / 1000)`), for either sign |
| `Decision.SecondsUntil` | src/express-rate-limit.ts:107-112 | `RateLimit-Reset` is never negative; it is 0 once the reset is past and otherwise the seconds, rounded up, until it |
| `Decision.LegacyHeaders` | src/express-rate-limit.ts:91-103 | nothing when legacy headers are off or already sent; otherwise `X-RateLimit-Limit` = the limit, `X-RateLimit-Remaining` = what is left, and `X-RateLimit-Reset` iff the store gave a reset time, equal to that time in seconds rounded up (`1000(v-1) < resetTime <= 1000v`) |
| `Decision.DraftHeaders` | src/express-rate-limit.ts:104-113 | nothing when draft headers are off or already sent; otherwise `RateLimit-Limit` = the limit, `RateLimit-Remaining` = what is left, and `RateLimit-Reset` iff the store gave a reset time, never negative, 0 once the reset is past and otherwise the seconds until it, rounded up |
| `Decision.RetryAfter` | src/express-rate-limit.ts:154-156 | `Retry-After` is set iff legacy headers are on and nothing was sent, and is `windowMs` in seconds rounded up |
| `Decision.ResolveMax` | src/express-rate-limit.ts:82 | a fixed max is used as it is and never fails; a max function is asked, and its failure is the result |
| `Decision.PipelineHeaders` | src/express-rate-limit.ts:91-157 | a request that got a record carries the legacy set, then the draft set, then, only on a denial, the Retry-After set |
| `Decision.LimitReached` | src/express-rate-limit.ts:149 | a request that reaches the limit (`current == max + 1`, max non-zero) is always one that is denied (`Exceeded`) |
| `Decision.Exceeded` | src/express-rate-limit.ts:153 | a max of 0 never denies, and a denied request's count is above the max |
| `Decision.Pipeline` | src/express-rate-limit.ts:66-163 | skipped iff skip returns true; the store is asked to increment iff skip returns false and the key resolves, and for that key; a record exists iff key, store and max all resolve; without a record there are no headers, no `onLimitReached` and no listeners |
| `Decision.RecordMatchesInputs` | src/express-rate-limit.ts:84-89 | the record is built from the max resolved once for this request and from the store's count and reset time |
| `Decision.DeniedExactlyWhenExceeded` | src/express-rate-limit.ts:149-160 | denied iff the pipeline reaches the decision with `max != 0 && current > max` and `onLimitReached` did not throw; allowed iff it reaches the decision without exceeding |
| `Decision.ZeroMaxNeverDenies` | src/express-rate-limit.ts:149-158 | with max 0 no request is denied and `onLimitReached` is never called |
| `Decision.LimitReachedOnlyAtThreshold` | src/express-rate-limit.ts:149-151 | `onLimitReached` is called iff the pipeline reaches the decision with `max != 0 && current == max + 1` |
| `Decision.FailuresAreForwarded` | src/express-rate-limit.ts:71-163 | a key, store or max failure goes to `next(e)` with that error; a key failure happens before any store call, a max failure after it; neither leaves a record or a header |
| `Decision.SkipTouchesNothing` | src/express-rate-limit.ts:67-69 | a skipped request makes no store call and sets no record, no header and no listener |
| `Decision.DeniedSendsRetryAfter` | src/express-rate-limit.ts:153-157 | on a denial with legacy headers on and nothing sent, the last header is `Retry-After = ceil(windowMs / 1000)` |
| `Decision.DraftResetNeverNegative` | src/express-rate-limit.ts:104-112 | no `RateLimit-Reset` header value is negative |
| `Compensation.FailureSignal` | src/express-rate-limit.ts:124-137 | the failed-request listeners react to a finish with status >= 400, a close before finishing and an error; a finish is a failure exactly when it is not a success |
| `Compensation.SuccessSignal` | src/express-rate-limit.ts:140-146 | only a finish can be a success (status < 400) |
| `Compensation.GuardedDecrements` | src/express-rate-limit.ts:115-138 | over any run of `finish`/`close`/`error` signals the failed-request path decrements at most once, and never once `decremented` is set |
| `Compensation.SuccessDecrements` | src/express-rate-limit.ts:140-146 | the successful-request path decrements at most once per signal, and never when successful requests are counted |
| `Compensation.SuccessDecrementsCountsSuccesses` | src/express-rate-limit.ts:140-146 | with successful requests uncounted, the decrements over a run are the sum over its parts, one per finish with status < 400 and none for any other signal |
| `Compensation.SuccessDecrementsIffSuccess` | src/express-rate-limit.ts:140-146 | with successful requests uncounted, some decrement happens iff some signal is a finish with status < 400 |
| `Compensation.GuardedDecrementsAtMostOnce` | src/express-rate-limit.ts:115-138 | starting unset, the failed-request path decrements exactly once iff failed requests are uncounted and some signal is a failure (status >= 400, close before finish, error), and otherwise not at all |
| `Compensation.Listeners.constructor` | src/express-rate-limit.ts:116-122 | a request's listeners start with `decremented` false, bound to its store and key |
| `Compensation.Listeners.DecrementKey` | src/express-rate-limit.ts:117-122 | the store is decremented only if the flag was not yet set; afterwards the flag is set |
| `Compensation.Listeners.OnFinish` | src/express-rate-limit.ts:124-146 | a finish with status >= 400 goes through the guard (failed requests), one with status < 400 decrements unguarded (successful requests); the store is lowered by exactly the decrements that fire |
| `Compensation.Listeners.OnClose` | src/express-rate-limit.ts:131-135 | a close before the response finished goes through the guard; a close after finishing does nothing |
| `Compensation.Listeners.OnError` | src/express-rate-limit.ts:137 | an error goes through the guard |
| `Compensation.Listeners.On` | src/express-rate-limit.ts:124-146 | each signal reaches its listeners; the store is lowered by exactly the decrements that fire and the flag is updated |
| `Compensation.Listeners.Run` | src/express-rate-limit.ts:115-146 | after any sequence of signals, the store's table is the old one lowered by the guarded path's decrements plus the successful-request path's (so by at most one plus the successful finishes), and the flag is set iff it was, or failed requests are uncounted and some signal was a failure |
| `Middleware.MemoryIncr` | src/memory-store.ts:19-27 | the in-memory store's `incr` as the pipeline sees it never fails, reports a count of at least 1 and the store's shared reset time |
| `Middleware.HandleRequest` | src/express-rate-limit.ts:66-164 | the middleware's result is `Pipeline` with the store's actual answer; the in-memory store is incremented once for the resolved key exactly when the pipeline calls it, and otherwise unchanged, and its reset time never changes; listeners are returned iff registered, fresh, unset, for that key |
| `Middleware.ResetKey` | src/express-rate-limit.ts:166 | the bound `resetKey` removes the key from the limiter's in-memory store and leaves the reset time unchanged |
| `Middleware.ResetIp` | src/express-rate-limit.ts:168-169 | `resetIp` does the same as `resetKey` |
| `Middleware.PlainRequestOnMemoryStore` | src/express-rate-limit.ts:71-160 | a request on the in-memory store under a fixed max carries the incremented count and the store's reset time; it is denied iff that count is over a non-zero max, reaches the limit iff it is max + 1, and a denial with headers ends with Retry-After |
| `Middleware.ThreeRequestsInOneWindow` | src/express-rate-limit.ts:149-158 | with windowMs 1000 and max 2, three requests for one key give (allowed, 1), (allowed, 2), (denied, 3, Retry-After 1), and only the third reaches the limit |
| `Middleware.FailedRequestUncountedOnce` | src/express-rate-limit.ts:115-138 | with skipFailedRequests, a status-500 finish followed by a close after finishing and an error uncounts the request once: two requests leave a count of 1 |
| `Middleware.SuccessfulRequestUncounted` | src/express-rate-limit.ts:140-146 | with skipSuccessfulRequests, a status-200 finish followed by a close uncounts the request: two requests leave a count of 1 |
| `Middleware.StoreFailureIsForwarded` | src/express-rate-limit.ts:74-80 | a store whose `incr` fails sends that error to `next(e)`, with no record and no header |
| `PrototypeKeys.IncrAsWritten` | src/memory-store.ts:19-27 | `incr` on the plain object touches only `key`'s own property and hands the callback what `hits[key]` then reads |
| `PrototypeKeys.DecrementAsWritten` | src/memory-store.ts:29-32 | `decrement` on the plain object touches only `key`'s own property, and nothing at all when `hits[key]` is falsy |
| `PrototypeKeys.ResetKeyAsWritten` | src/memory-store.ts:40-42 | `delete` removes `key`'s own property and no other, and an Object.prototype member's name then reads the inherited member again |
| `PrototypeKeys.ExceededAsWritten` | src/express-rate-limit.ts:153 | `max && current > max` on what the callback reported: only a number can be over the limit, and for a number it is `Exceeded` |
| `PrototypeKeys.ProtoKeyNeverDenied` | src/memory-store.ts:8-27 | as written, key `__proto__` reports the prototype object on every hit, the table never changes, and no request is ever denied whatever the max |
| `PrototypeKeys.InheritedNameFirstReportIsNaN` | src/memory-store.ts:8-27 | as written, key `constructor` reports NaN, then 1, then 2 in a fresh window |
| `PrototypeKeys.OrdinaryKeysAgree` | src/memory-store.ts:19-42 | on every key that is not inherited from Object.prototype, `incr`, `decrement` and `resetKey` on the object as written behave like the map model (`Bumped`, `Lowered`, removal of the key) |
| `PrototypeKeys.InheritedNameDecrementLeavesNaN` | src/memory-store.ts:29-42 | as written, `decrement("constructor")` on a fresh table leaves an own NaN where the map model holds nothing, and a later `resetKey` brings the inherited member back |
| `PrototypeKeys.CorrectedStoreDeniesProtoKey` | src/memory-store.ts:19-27 | with the table as a true map, `__proto__` counts from 1 like any key, so request max + 1 is over the limit |

## Findings

| source | as written | input that shows it | evidently intended | confidence | as-written member | corrected member |
|---|---|---|---|---|---|---|
| src/memory-store.ts:8-27 | `hits` is a plain `{}` object, so `hits[key]` for `__proto__` reads Object.prototype (truthy). `++` turns it into NaN, which the `__proto__` setter ignores, and the callback receives the prototype object. `current > max` is then false. Inherited names such as `constructor` report NaN on their first hit of each window | a custom `keyGenerator` returning `"__proto__"`: every request is allowed whatever `max` is | every key is counted from 1 (the table typed as a string-to-number dictionary) | medium; not executed | `PrototypeKeys.ProtoKeyNeverDenied` | `PrototypeKeys.CorrectedStoreDeniesProtoKey` |

The rest of the model (`Store.MemoryStore`) uses the corrected table, a true
map. `PrototypeKeys.OrdinaryKeysAgree` shows that `incr`, `decrement` and
`resetKey` on it agree with the code on every key that is not an
Object.prototype member.

## Left out

- The `setInterval` timer that calls `resetAll` every `windowMs`, and its `unref` (src/memory-store.ts:13-16). Rollover is an explicit `ResetAll(now)` call.
- The `console.log` in `resetAll`: it has no effect on the state.
- Dates and the clock. Times are integer milliseconds passed in. The `Date` response header (`toGMTString`) is not modelled.
- JavaScript numbers are modelled as unbounded integers. Fractional and non-finite values of `windowMs`, `max` or a store's count are not covered, except NaN in `PrototypeKeys`.
- Options with an explicit `undefined` value. The model's option values always have their declared type, so the fallbacks `windowMs ?? 1000` and `statusCode ?? 200` are never taken.
- The default handler's response (`res.status(statusCode).send(message)`) and the message option. A denial is the verdict `Denied`; `statusCode` is kept only as a setting.
- Express transport plumbing: `res.setHeader` (headers are a sequence of name and integer value pairs), `res.on` subscription (listener methods are called directly), `next()`, and the global `req.rateLimit` augmentation (the record is part of the result).
- The Promise wrapper around the store's `incr` callback, and the `await`s. Each becomes a plain value that succeeds or fails. Concurrency and interleaving of requests are not modelled.
- Exceptions thrown by `handler`, and a `headersSent` that changes while a user callback runs.
- Custom stores' behaviour. Only their shape (which operations exist) and their `incr` answer are modelled.
- `Middleware.HandleRequest`: registers a `Listeners` object only for the in-memory store. With a custom store the result only records that listeners would be registered, because that store's `decrement` is not modelled.
- `Middleware.ResetKey`: for a custom store the bound `resetKey` has no modelled effect.
- `Middleware.ResetIp`: for a custom store it has no modelled effect, as for `ResetKey`.
- The compiled `lib/*.js` files and the declaration files: they mirror `src/` and hold no further logic.

=== FILE: compensation.dfy ===
/**
 * The compensating decrement of one request: the listeners the middleware
 * registers on the response when failed or successful requests are not to
 * be counted, and the per-request `decremented` flag that lets the
 * failed-request path decrement the store at most once.
 */
module Compensation {
  import opened Store

  /** A terminal signal of the response. */
  datatype Event = Finish(statusCode: int) | Close(finished: bool) | Error

  /** The failed-request listeners react to: a finish with status >= 400, a close before finishing, an error. */
  predicate FailureSignal(e: Event): (failed: bool)
    ensures e.Finish? ==> (failed <==> !SuccessSignal(e))
  {
    match e
    case Finish(statusCode) => statusCode >= 400
    case Close(finished) => !finished
    case Error => true
  }

  /** The successful-request listener reacts to a finish with status < 400. */
  predicate SuccessSignal(e: Event): (succeeded: bool)
    ensures succeeded ==> e.Finish?
  {
    e.Finish? && e.statusCode < 400
  }

  /** Whether the guarded failed-request path decrements on `e`, given the flag. */
  predicate GuardFires(skipFailed: bool, decremented: bool, e: Event) {
    skipFailed && !decremented && FailureSignal(e)
  }

  /** Decrements the listeners make on one event: the guarded one and the unguarded successful-request one. */
  function Fired(skipFailed: bool, skipSuccessful: bool, decremented: bool, e: Event): nat {
    (if GuardFires(skipFailed, decremented, e) then 1 else 0) + (if skipSuccessful && SuccessSignal(e) then 1 else 0)
  }

  /** The flag after `e`. */
  function FlagAfter(skipFailed: bool, decremented: bool, e: Event): bool {
    decremented || (skipFailed && FailureSignal(e))
  }

  /**
   * Decrements made by the guarded path over a sequence of events: none once
   * the flag is set, and never more than one.
   */
  function GuardedDecrements(skipFailed: bool, decremented: bool, events: seq<Event>): (n: nat)
    ensures decremented ==> n == 0
    ensures n <= 1
    decreases |events|
  {
    if events == [] then 0
    else
      (if GuardFires(skipFailed, decremented, events[0]) then 1 else 0)
      + GuardedDecrements(skipFailed, FlagAfter(skipFailed, decremented, events[0]), events[1..])
  }

  /** Decrements made by the unguarded successful-request path: one per finish with status < 400. */
  function SuccessDecrements(skipSuccessful: bool, events: seq<Event>): (n: nat)
    ensures !skipSuccessful ==> n == 0
    ensures n <= |events|
    decreases |events|
  {
    if events == [] then 0
    else (if skipSuccessful && SuccessSignal(events[0]) then 1 else 0) + SuccessDecrements(skipSuccessful, events[1..])
  }

  /**
   * With successful requests uncounted, each finish with status < 400
   * decrements once: the count splits over a concatenation and a single
   * event counts 1 exactly when it is a success signal.
   */
  lemma {:induction false} SuccessDecrementsCountsSuccesses(a: seq<Event>, b: seq<Event>)
    ensures SuccessDecrements(true, a + b) == SuccessDecrements(true, a) + SuccessDecrements(true, b)
    ensures forall e :: SuccessDecrements(true, [e]) == if SuccessSignal(e) then 1 else 0
    decreases |a|
  {
    if a != [] {
      assert (a + b)[1..] == a[1..] + b;
      SuccessDecrementsCountsSuccesses(a[1..], b);
    } else {
      assert a + b == b;
    }
    forall e
      ensures SuccessDecrements(true, [e]) == if SuccessSignal(e) then 1 else 0
    {
      assert [e][1..] == [];
    }
  }

  /** With successful requests uncounted, some decrement happens iff some finish has status < 400. */
  lemma {:induction false} SuccessDecrementsIffSuccess(events: seq<Event>)
    ensures SuccessDecrements(true, events) >= 1 <==> exists i :: 0 <= i < |events| && SuccessSignal(events[i])
    decreases |events|
  {
    if events != [] {
      SuccessDecrementsIffSuccess(events[1..]);
      if exists i :: 0 <= i < |events| && SuccessSignal(events[i]) {
        var i :| 0 <= i < |events| && SuccessSignal(events[i]);
        if i > 0 {
          assert events[1..][i - 1] == events[i];
        }
      }
      if exists i :: 0 <= i < |events[1..]| && SuccessSignal(events[1..][i]) {
        var i :| 0 <= i < |events[1..]| && SuccessSignal(events[1..][i]);
        assert events[i + 1] == events[1..][i];
      }
    }
  }

  /** The flag after a sequence of events: set before, or some event was a failure signal the guard listens to. */
  function FlagAfterAll(skipFailed: bool, decremented: bool, events: seq<Event>): bool {
    decremented || (skipFailed && exists i :: 0 <= i < |events| && FailureSignal(events[i]))
  }

  /**
   * Whatever terminal signals arrive and in whatever order, the failed-request
   * path decrements the store at most once, and exactly once if some signal
   * is a failure and failed requests are uncounted.
   */
  lemma {:induction false} GuardedDecrementsAtMostOnce(skipFailed: bool, events: seq<Event>)
    ensures GuardedDecrements(skipFailed, false, events) == 1 <==>
      skipFailed && exists i :: 0 <= i < |events| && FailureSignal(events[i])
    decreases |events|
  {
    if events != [] {
      if !GuardFires(skipFailed, false, events[0]) {
        GuardedDecrementsAtMostOnce(skipFailed, events[1..]);
        if skipFailed && exists i :: 0 <= i < |events| && FailureSignal(events[i]) {
          var i :| 0 <= i < |events| && FailureSignal(events[i]);
          assert events[1..][i - 1] == events[i];
        }
        if skipFailed && exists i :: 0 <= i < |events[1..]| && FailureSignal(events[1..][i]) {
          var i :| 0 <= i < |events[1..]| && FailureSignal(events[1..][i]);
          assert events[i + 1] == events[1..][i];
        }
      }
    }
  }

  /** The flag after a sequence is the flag after its first event, then after the rest. */
  lemma FlagAfterAllStep(skipFailed: bool, decremented: bool, events: seq<Event>)
    requires events != []
    ensures FlagAfterAll(skipFailed, decremented, events)
         == FlagAfterAll(skipFailed, FlagAfter(skipFailed, decremented, events[0]), events[1..])
  {
    if skipFailed && exists i :: 0 <= i < |events| && FailureSignal(events[i]) {
      var i :| 0 <= i < |events| && FailureSignal(events[i]);
      if i > 0 {
        assert events[1..][i - 1] == events[i];
      }
    }
    if skipFailed && exists i :: 0 <= i < |events[1..]| && FailureSignal(events[1..][i]) {
      var i :| 0 <= i < |events[1..]| && FailureSignal(events[1..][i]);
      assert events[i + 1] == events[1..][i];
    }
  }

  /** The decrements over a sequence are those of its first event plus those of the rest. */
  lemma DecrementsStep(skipFailed: bool, skipSuccessful: bool, decremented: bool, events: seq<Event>)
    requires events != []
    ensures GuardedDecrements(skipFailed, decremented, events) + SuccessDecrements(skipSuccessful, events)
         == Fired(skipFailed, skipSuccessful, decremented, events[0])
            + GuardedDecrements(skipFailed, FlagAfter(skipFailed, decremented, events[0]), events[1..])
            + SuccessDecrements(skipSuccessful, events[1..])
  {
  }

  /** Lowering by the first event's decrements and then the rest's is lowering by the whole sequence's. */
  lemma FirstThenRest(hits0: map<string, nat>, hits1: map<string, nat>, hits2: map<string, nat>, key: string,
                      skipFailed: bool, skipSuccessful: bool, decremented: bool, events: seq<Event>)
    requires events != []
    requires hits1 == LoweredTimes(hits0, key, Fired(skipFailed, skipSuccessful, decremented, events[0]))
    requires hits2 == LoweredTimes(hits1, key, GuardedDecrements(skipFailed, FlagAfter(skipFailed, decremented, events[0]), events[1..])
                                               + SuccessDecrements(skipSuccessful, events[1..]))
    ensures hits2 == LoweredTimes(hits0, key, GuardedDecrements(skipFailed, decremented, events) + SuccessDecrements(skipSuccessful, events))
  {
    var first := Fired(skipFailed, skipSuccessful, decremented, events[0]);
    var rest := GuardedDecrements(skipFailed, FlagAfter(skipFailed, decremented, events[0]), events[1..])
                + SuccessDecrements(skipSuccessful, events[1..]);
    DecrementsStep(skipFailed, skipSuccessful, decremented, events);
    LoweredTimesAdd(hits0, key, first, rest);
  }

  /** The listeners registered for one request, sharing the `decremented` flag. */
  class Listeners {
    const store: MemoryStore
    const key: string
    const skipFailedRequests: bool
    const skipSuccessfulRequests: bool
    var decremented: bool

    constructor (store: MemoryStore, key: string, skipFailedRequests: bool, skipSuccessfulRequests: bool)
      ensures this.store == store && this.key == key
      ensures this.skipFailedRequests == skipFailedRequests && this.skipSuccessfulRequests == skipSuccessfulRequests
      ensures !decremented
    {
      this.store := store;
      this.key := key;
      this.skipFailedRequests := skipFailedRequests;
      this.skipSuccessfulRequests := skipSuccessfulRequests;
      decremented := false;
    }

    /** `decrementKey`: decrements the store the first time only. */
    method DecrementKey()
      modifies this`decremented, store`hits
      ensures decremented
      ensures store.hits == if old(decremented) then old(store.hits) else Lowered(old(store.hits), key)
    {
      if !decremented {
        store.Decrement(key);
        decremented := true;
      }
    }

    /** The `finish` listeners: the failed-request one (status >= 400), then the successful-request one (status < 400). */
    method OnFinish(statusCode: int)
      modifies this`decremented, store`hits
      ensures decremented == FlagAfter(skipFailedRequests, old(decremented), Finish(statusCode))
      ensures store.hits == LoweredTimes(old(store.hits), key, Fired(skipFailedRequests, skipSuccessfulRequests, old(decremented), Finish(statusCode)))
    {
      if skipFailedRequests && statusCode >= 400 {
        DecrementKey();
      }
      if skipSuccessfulRequests && statusCode < 400 {
        store.Decrement(key);
      }
    }

    /** The `close` listener: a response closed before it finished counts as failed. */
    method OnClose(finished: bool)
      modifies this`decremented, store`hits
      ensures decremented == FlagAfter(skipFailedRequests, old(decremented), Close(finished))
      ensures store.hits == LoweredTimes(old(store.hits), key, Fired(skipFailedRequests, skipSuccessfulRequests, old(decremented), Close(finished)))
    {
      if skipFailedRequests && !finished {
        DecrementKey();
      }
    }

    /**
     * The listeners over the terminal signals of one response, in the order
     * they arrive: the store loses the guarded path's decrements plus the
     * successful-request path's, and the flag ends set exactly when it was
     * set or failed requests are uncounted and some signal was a failure.
     */
    method Run(events: seq<Event>)
      modifies this`decremented, store`hits
      ensures store.hits == LoweredTimes(old(store.hits), key,
        GuardedDecrements(skipFailedRequests, old(decremented), events) + SuccessDecrements(skipSuccessfulRequests, events))
      ensures decremented == FlagAfterAll(skipFailedRequests, old(decremented), events)
      decreases |events|
    {
      if events != [] {
        var hits0, flag0 := store.hits, decremented;
        On(events[0]);
        var hits1 := store.hits;
        Run(events[1..]);
        FirstThenRest(hits0, hits1, store.hits, key, skipFailedRequests, skipSuccessfulRequests, flag0, events);
        FlagAfterAllStep(skipFailedRequests, flag0, events);
      } else {
        assert LoweredTimes(store.hits, key, 0) == store.hits;
      }
    }

    /** The listener that fires on `e`. */
    method On(e: Event)
      modifies this`decremented, store`hits
      ensures decremented == FlagAfter(skipFailedRequests, old(decremented), e)
      ensures store.hits == LoweredTimes(old(store.hits), key, Fired(skipFailedRequests, skipSuccessfulRequests, old(decremented), e))
    {
      match e {
        case Finish(statusCode) => OnFinish(statusCode);
        case Close(finished) => OnClose(finished);
        case Error => OnError();
      }
    }

    /** The `error` listener. */
    method OnError()
      modifies this`decremented, store`hits
      ensures decremented == FlagAfter(skipFailedRequests, old(decremented), Error)
      ensures store.hits == LoweredTimes(old(store.hits), key, Fired(skipFailedRequests, skipSuccessfulRequests, old(decremented), Error))
    {
      if skipFailedRequests {
        DecrementKey();
      }
    }
  }
}

=== FILE: decision.dfy ===
/**
 * The per-request decision of the limiter, as pure functions: the record
 * attached to the request, the header values, the two thresholds, and the
 * whole pipeline from the skip check to allow, deny or forward an error.
 * Callbacks (skip, key generator, max function, onLimitReached) and the
 * store's reply are inputs.
 */
module Decision {
  import opened Wrappers
  import opened Options

  /** `req.rateLimit`: the limit, the count the store reported, what is left, the reset time (ms). */
  datatype Info = Info(limit: int, current: int, remaining: int, resetTime: Option<int>)

  /** The record built from the resolved max and the store's reply; remaining is max(limit - current, 0). */
  function MakeInfo(max: int, current: int, resetTime: Option<int>): (i: Info)
    ensures i.limit == max && i.current == current && i.resetTime == resetTime
    ensures i.remaining >= 0 && i.remaining >= max - current
    ensures i.remaining == 0 || i.remaining == max - current
    ensures 0 <= current && 0 <= max ==> i.remaining <= max
  {
    Info(max, current, if max - current > 0 then max - current else 0, resetTime)
  }

  /** `Math.ceil(ms / 1000)`: whole seconds, rounded up, for any sign. */
  function CeilSeconds(ms: int): (s: int)
    ensures 1000 * (s - 1) < ms <= 1000 * s
  {
    -((-ms) / 1000)
  }

  /** `Math.max(0, Math.ceil((resetMs - nowMs) / 1000))`: seconds until the reset, never negative. */
  function SecondsUntil(resetMs: int, nowMs: int): (s: int)
    ensures s >= 0
    ensures resetMs <= nowMs ==> s == 0
    ensures resetMs > nowMs ==> 1000 * (s - 1) < resetMs - nowMs <= 1000 * s
  {
    var delta := CeilSeconds(resetMs - nowMs);
    if delta > 0 then delta else 0
  }

  datatype Header = Header(name: string, value: int)

  /**
   * The `X-RateLimit-*` set, when legacy headers are on and nothing has been
   * sent yet: the limit, what is left and, when the store keeps a reset
   * time, that time in whole seconds rounded up.
   */
  function LegacyHeaders(s: Settings, info: Info, headersSent: bool): (hs: seq<Header>)
    ensures !s.headers || headersSent ==> hs == []
    ensures s.headers && !headersSent ==>
      && |hs| == (if info.resetTime.Some? then 3 else 2)
      && hs[0] == Header("X-RateLimit-Limit", info.limit)
      && hs[1] == Header("X-RateLimit-Remaining", info.remaining)
      && (info.resetTime.Some? ==> hs[2] == Header("X-RateLimit-Reset", CeilSeconds(info.resetTime.value)))
  {
    if s.headers && !headersSent then
      [Header("X-RateLimit-Limit", info.limit), Header("X-RateLimit-Remaining", info.remaining)]
      + (if info.resetTime.Some? then [Header("X-RateLimit-Reset", CeilSeconds(info.resetTime.value))] else [])
    else []
  }

  /**
   * The draft `RateLimit-*` set, when draft headers are on and nothing has
   * been sent yet: the limit, what is left and, when the store keeps a reset
   * time, the whole seconds from `nowMs` until then, never negative.
   */
  function DraftHeaders(s: Settings, info: Info, headersSent: bool, nowMs: int): (hs: seq<Header>)
    ensures !s.draftHeaders || headersSent ==> hs == []
    ensures s.draftHeaders && !headersSent ==>
      && |hs| == (if info.resetTime.Some? then 3 else 2)
      && hs[0] == Header("RateLimit-Limit", info.limit)
      && hs[1] == Header("RateLimit-Remaining", info.remaining)
      && (info.resetTime.Some? ==> hs[2] == Header("RateLimit-Reset", SecondsUntil(info.resetTime.value, nowMs)))
  {
    if s.draftHeaders && !headersSent then
      [Header("RateLimit-Limit", info.limit), Header("RateLimit-Remaining", info.remaining)]
      + (if info.resetTime.Some? then [Header("RateLimit-Reset", SecondsUntil(info.resetTime.value, nowMs))] else [])
    else []
  }

  /** `Retry-After`, the window in whole seconds rounded up, sent on a denial when legacy headers are on. */
  function RetryAfter(s: Settings, headersSent: bool): (hs: seq<Header>)
    ensures hs == [] <==> !s.headers || headersSent
    ensures hs != [] ==>
      && |hs| == 1 && hs[0].name == "Retry-After"
      && 1000 * (hs[0].value - 1) < s.windowMs <= 1000 * hs[0].value
  {
    if s.headers && !headersSent then [Header("Retry-After", CeilSeconds(s.windowMs))] else []
  }

  /** `max && current === max + 1`: the request that first goes over the limit. */
  predicate LimitReached(max: int, current: int): (reached: bool)
    ensures reached ==> Exceeded(max, current)
  {
    max != 0 && current == max + 1
  }

  /** `max && current > max`: the request is denied. A max of 0 disables limiting. */
  predicate Exceeded(max: int, current: int): (exceeded: bool)
    ensures max == 0 ==> !exceeded
    ensures exceeded ==> current > max
  {
    max != 0 && current > max
  }

  /** What the callbacks and the transport give for one request. */
  datatype RequestInputs = RequestInputs(
    skip: Result<bool>,              // skip(req, res)
    key: Result<string>,             // keyGenerator(req, res)
    maxFromFunction: Result<int>,    // max(req, res), read only when max is a function
    onLimitReached: Result<()>,      // whether onLimitReached throws
    headersSent: bool,               // res.headersSent
    nowMs: int)                      // Date.now()

  /** The store's answer to `incr(key)`: the new count and, if the store keeps one, its reset time. */
  datatype IncrReply = IncrReply(current: int, resetTime: Option<int>)

  /** `options.max`, resolved once for this request. */
  function ResolveMax(setting: MaxSetting, fromFunction: Result<int>): (r: Result<int>)
    ensures setting.Fixed? ==> r == Ok(setting.n)
    ensures setting.PerRequest? ==> r == fromFunction
  {
    match setting
    case Fixed(n) => Ok(n)
    case PerRequest => fromFunction
  }

  /**
   * How the request leaves the middleware: `next()` without counting, an
   * exception thrown by skip (outside the error handling), `next(e)`,
   * `next()` after counting, or the handler.
   */
  datatype Verdict = Skipped | Escaped(thrown: string) | Forwarded(error: string) | Allowed | Denied

  /**
   * The full effect of one request: the verdict, the key the store was asked
   * to increment (if it was), the record, the headers set, whether
   * onLimitReached was called, and whether outcome listeners were registered.
   */
  datatype Handled = Handled(
    verdict: Verdict,
    storeKey: Option<string>,
    info: Option<Info>,
    headers: seq<Header>,
    limitReached: bool,
    listening: bool)

  /** Everything up to the decision succeeded: not skipped, key, store and max all resolved. */
  predicate Proceeds(s: Settings, inp: RequestInputs, incr: string -> Result<IncrReply>) {
    && inp.skip == Ok(false)
    && inp.key.Ok?
    && incr(inp.key.value).Ok?
    && ResolveMax(s.max, inp.maxFromFunction).Ok?
  }

  /** One run of the `rateLimit` middleware; `incr` is the store's answer for a key. */
  function Pipeline(s: Settings, inp: RequestInputs, incr: string -> Result<IncrReply>): (h: Handled)
    ensures h.verdict == Skipped <==> inp.skip == Ok(true)
    ensures h.storeKey.Some? <==> inp.skip == Ok(false) && inp.key.Ok?
    ensures h.storeKey.Some? ==> h.storeKey.value == inp.key.value
    ensures h.info.Some? <==> Proceeds(s, inp, incr)
    ensures h.info.None? ==> h.headers == [] && !h.limitReached && !h.listening
  {
    match inp.skip
    case Err(e) => Handled(Escaped(e), None, None, [], false, false)
    case Ok(skipped) =>
      if skipped then Handled(Skipped, None, None, [], false, false)
      else
        match inp.key
        case Err(e) => Handled(Forwarded(e), None, None, [], false, false)
        case Ok(key) =>
          match incr(key)
          case Err(e) => Handled(Forwarded(e), Some(key), None, [], false, false)
          case Ok(reply) =>
            match ResolveMax(s.max, inp.maxFromFunction)
            case Err(e) => Handled(Forwarded(e), Some(key), None, [], false, false)
            case Ok(max) =>
              var info := MakeInfo(max, reply.current, reply.resetTime);
              var headers := LegacyHeaders(s, info, inp.headersSent) + DraftHeaders(s, info, inp.headersSent, inp.nowMs);
              var listening := s.skipFailedRequests || s.skipSuccessfulRequests;
              var reached := LimitReached(max, reply.current);
              if reached && inp.onLimitReached.Err? then
                Handled(Forwarded(inp.onLimitReached.error), Some(key), Some(info), headers, true, listening)
              else if Exceeded(max, reply.current) then
                Handled(Denied, Some(key), Some(info), headers + RetryAfter(s, inp.headersSent), reached, listening)
              else
                Handled(Allowed, Some(key), Some(info), headers, false, listening)
  }

  /** The record carries the resolved max and the store's count, and remaining = max(limit - current, 0). */
  lemma RecordMatchesInputs(s: Settings, inp: RequestInputs, incr: string -> Result<IncrReply>)
    requires Proceeds(s, inp, incr)
    ensures var h := Pipeline(s, inp, incr);
      var max := ResolveMax(s.max, inp.maxFromFunction).value;
      var reply := incr(inp.key.value).value;
      && h.info == Some(Info(max, reply.current, if max > reply.current then max - reply.current else 0, reply.resetTime))
  {
  }

  /**
   * Denial: exactly when the pipeline gets to the decision and
   * `max != 0 && current > max`, unless onLimitReached throws first.
   */
  lemma DeniedExactlyWhenExceeded(s: Settings, inp: RequestInputs, incr: string -> Result<IncrReply>)
    ensures var h := Pipeline(s, inp, incr);
      h.verdict == Denied <==>
        Proceeds(s, inp, incr)
        && Exceeded(ResolveMax(s.max, inp.maxFromFunction).value, incr(inp.key.value).value.current)
        && !(LimitReached(ResolveMax(s.max, inp.maxFromFunction).value, incr(inp.key.value).value.current)
             && inp.onLimitReached.Err?)
    ensures var h := Pipeline(s, inp, incr);
      h.verdict == Allowed <==>
        Proceeds(s, inp, incr)
        && !Exceeded(ResolveMax(s.max, inp.maxFromFunction).value, incr(inp.key.value).value.current)
  {
  }

  /** With a max of 0, no request is ever denied and onLimitReached is never called. */
  lemma ZeroMaxNeverDenies(s: Settings, inp: RequestInputs, incr: string -> Result<IncrReply>)
    requires ResolveMax(s.max, inp.maxFromFunction) == Ok(0)
    ensures Pipeline(s, inp, incr).verdict != Denied
    ensures !Pipeline(s, inp, incr).limitReached
  {
  }

  /** onLimitReached is called only for the request where `current == max + 1`, with max non-zero. */
  lemma LimitReachedOnlyAtThreshold(s: Settings, inp: RequestInputs, incr: string -> Result<IncrReply>)
    ensures var h := Pipeline(s, inp, incr);
      h.limitReached <==>
        Proceeds(s, inp, incr)
        && LimitReached(ResolveMax(s.max, inp.maxFromFunction).value, incr(inp.key.value).value.current)
  {
  }

  /**
   * A failure of key resolution, of the store or of max resolution goes to
   * `next(e)` with that same error, with no record and no header.
   */
  lemma FailuresAreForwarded(s: Settings, inp: RequestInputs, incr: string -> Result<IncrReply>)
    requires inp.skip == Ok(false)
    ensures var h := Pipeline(s, inp, incr);
      && (inp.key.Err? ==> h.verdict == Forwarded(inp.key.error) && h.storeKey.None?)
      && (inp.key.Ok? && incr(inp.key.value).Err? ==> h.verdict == Forwarded(incr(inp.key.value).error))
      && (inp.key.Ok? && incr(inp.key.value).Ok? && ResolveMax(s.max, inp.maxFromFunction).Err? ==>
            h.verdict == Forwarded(ResolveMax(s.max, inp.maxFromFunction).error) && h.storeKey == Some(inp.key.value))
      && (!Proceeds(s, inp, incr) ==> h.info.None? && h.headers == [])
  {
  }

  /** A skipped request continues without a store call, a record or a header. */
  lemma SkipTouchesNothing(s: Settings, inp: RequestInputs, incr: string -> Result<IncrReply>)
    requires inp.skip == Ok(true)
    ensures Pipeline(s, inp, incr) == Handled(Skipped, None, None, [], false, false)
  {
  }

  /** On a denial with legacy headers on and nothing sent yet, the last header is Retry-After = ceil(windowMs / 1000). */
  lemma DeniedSendsRetryAfter(s: Settings, inp: RequestInputs, incr: string -> Result<IncrReply>)
    requires s.headers && !inp.headersSent
    ensures var h := Pipeline(s, inp, incr);
      h.verdict == Denied ==>
        |h.headers| > 0 && h.headers[|h.headers| - 1] == Header("Retry-After", CeilSeconds(s.windowMs))
  {
  }

  /** The headers of a request that got a record: the legacy set, the draft set, and Retry-After on a denial. */
  lemma PipelineHeaders(s: Settings, inp: RequestInputs, incr: string -> Result<IncrReply>)
    ensures var h := Pipeline(s, inp, incr);
      h.info.Some? ==>
        h.headers == LegacyHeaders(s, h.info.value, inp.headersSent)
                     + DraftHeaders(s, h.info.value, inp.headersSent, inp.nowMs)
                     + (if h.verdict == Denied then RetryAfter(s, inp.headersSent) else [])
  {
  }

  /** In the headers of one record, every `RateLimit-Reset` value is non-negative. */
  lemma ResetHeaderNeverNegative(s: Settings, info: Info, headersSent: bool, nowMs: int, denied: bool, i: nat)
    requires i < |LegacyHeaders(s, info, headersSent) + DraftHeaders(s, info, headersSent, nowMs)
                  + (if denied then RetryAfter(s, headersSent) else [])|
    ensures var hd := (LegacyHeaders(s, info, headersSent) + DraftHeaders(s, info, headersSent, nowMs)
                       + (if denied then RetryAfter(s, headersSent) else []))[i];
      hd.name == "RateLimit-Reset" ==> hd.value >= 0
  {
    var legacy := LegacyHeaders(s, info, headersSent);
    var draft := DraftHeaders(s, info, headersSent, nowMs);
    var tail := if denied then RetryAfter(s, headersSent) else [];
    if i < |legacy| {
      assert (legacy + draft + tail)[i] == legacy[i];
    } else if i < |legacy| + |draft| {
      assert (legacy + draft + tail)[i] == draft[i - |legacy|];
    } else {
      assert (legacy + draft + tail)[i] == tail[i - |legacy| - |draft|];
    }
  }

  /** The draft `RateLimit-Reset` header, whenever it is set, is never negative. */
  lemma DraftResetNeverNegative(s: Settings, inp: RequestInputs, incr: string -> Result<IncrReply>, i: nat)
    requires i < |Pipeline(s, inp, incr).headers|
    ensures var hd := Pipeline(s, inp, incr).headers[i];
      hd.name == "RateLimit-Reset" ==> hd.value >= 0
  {
    var h := Pipeline(s, inp, incr);
    PipelineHeaders(s, inp, incr);
    ResetHeaderNeverNegative(s, h.info.value, inp.headersSent, inp.nowMs, h.verdict == Denied, i);
  }
}

=== FILE: memory_store.dfy ===
/**
 * The in-memory counter store: a table from keys to hit counts and one
 * reset time shared by every key (a fixed window for the whole store).
 * The clock is not read here: `now` is a parameter, in milliseconds.
 */
module Store {

  /** `calculateNextResetTime`: the end of a window of `windowMs` starting at `now`. */
  function NextResetTime(windowMs: int, now: int): (r: int)
    ensures r - now == windowMs
    ensures windowMs >= 0 ==> r >= now
  {
    now + windowMs
  }

  /** The count the store holds for `key`; an absent key counts as zero. */
  function Count(hits: map<string, nat>, key: string): nat {
    if key in hits then hits[key] else 0
  }

  /** The table after `incr(key)`: a positive count goes up by one, an absent or zero one becomes 1. */
  function Bumped(hits: map<string, nat>, key: string): (r: map<string, nat>)
    ensures key in r && r[key] == Count(hits, key) + 1
    ensures r.Keys == hits.Keys + {key}
    ensures forall k :: k in hits && k != key ==> r[k] == hits[k]
  {
    if key in hits && hits[key] > 0 then hits[key := hits[key] + 1] else hits[key := 1]
  }

  /** The table after `decrement(key)`: a positive count goes down by one, anything else is left alone. */
  function Lowered(hits: map<string, nat>, key: string): (r: map<string, nat>)
    ensures Count(r, key) == if Count(hits, key) > 0 then Count(hits, key) - 1 else 0
    ensures r.Keys == hits.Keys
    ensures forall k :: k in hits && k != key ==> r[k] == hits[k]
  {
    if key in hits && hits[key] > 0 then hits[key := hits[key] - 1] else hits
  }

  /** The table after `n` decrements of `key`: its count goes down by `n`, floored at 0. */
  function LoweredTimes(hits: map<string, nat>, key: string, n: nat): (r: map<string, nat>)
    ensures Count(r, key) == if Count(hits, key) >= n then Count(hits, key) - n else 0
    ensures r.Keys == hits.Keys
    ensures forall k :: k in hits && k != key ==> r[k] == hits[k]
  {
    if key in hits then hits[key := if hits[key] >= n then hits[key] - n else 0] else hits
  }

  /** No decrement leaves the table as it is, and each further one is one more `decrement`. */
  lemma LoweredTimesIsRepeatedDecrement(hits: map<string, nat>, key: string, n: nat)
    ensures LoweredTimes(hits, key, 0) == hits
    ensures LoweredTimes(hits, key, n + 1) == Lowered(LoweredTimes(hits, key, n), key)
  {
  }

  /** Decrementing `a` times and then `b` times is decrementing `a + b` times. */
  lemma LoweredTimesAdd(hits: map<string, nat>, key: string, a: nat, b: nat)
    ensures LoweredTimes(LoweredTimes(hits, key, a), key, b) == LoweredTimes(hits, key, a + b)
  {
  }

  /** A decrement undoes an increment as far as the counts are concerned. */
  lemma DecrementUndoesIncr(hits: map<string, nat>, key: string, other: string)
    ensures Count(Lowered(Bumped(hits, key), key), other) == Count(hits, other)
  {
  }

  /** After `resetKey(key)` the key is new again: the next `incr` reports 1. */
  lemma ResetKeyThenIncrReportsOne(hits: map<string, nat>, key: string)
    ensures Count(Bumped(hits - {key}, key), key) == 1
  {
  }

  class MemoryStore {
    var hits: map<string, nat>
    var resetTime: int
    const windowMs: int

    /** An empty table whose window ends `windowMs` after `now`. */
    constructor (windowMs: int, now: int)
      ensures this.windowMs == windowMs
      ensures hits == map[]
      ensures resetTime == NextResetTime(windowMs, now)
    {
      this.windowMs := windowMs;
      hits := map[];
      resetTime := NextResetTime(windowMs, now);
    }

    /** `incr`: counts one more hit for `key` and reports the new count and the shared reset time. */
    method Incr(key: string) returns (hit: nat, reset: int)
      modifies this`hits
      ensures hits == Bumped(old(hits), key)
      ensures hit == Count(hits, key) == Count(old(hits), key) + 1
      ensures reset == resetTime
    {
      if key in hits && hits[key] > 0 {
        hits := hits[key := hits[key] + 1];
      } else {
        hits := hits[key := 1];
      }
      hit, reset := hits[key], resetTime;
    }

    /** `decrement`: takes one hit back from a positive count; never makes a count negative. */
    method Decrement(key: string)
      modifies this`hits
      ensures hits == Lowered(old(hits), key)
    {
      if key in hits && hits[key] > 0 {
        hits := hits[key := hits[key] - 1];
      }
    }

    /** `resetAll`: forgets every key and starts a new window at `now`. */
    method ResetAll(now: int)
      modifies this`hits, this`resetTime
      ensures hits == map[]
      ensures resetTime == NextResetTime(windowMs, now)
    {
      hits := map[];
      resetTime := NextResetTime(windowMs, now);
    }

    /** `resetKey`: forgets one key, as if it had never been seen. */
    method ResetKey(key: string)
      modifies this`hits
      ensures hits == old(hits) - {key}
      ensures key !in hits && forall k :: k in old(hits) && k != key ==> k in hits && hits[k] == old(hits)[k]
    {
      hits := hits - {key};
    }
  }
}

=== FILE: middleware.dfy ===
/**
 * The middleware bound to its store: one request run against the store the
 * limiter was built with, and the `resetKey` / `resetIp` functions attached
 * to it. Concrete runs at the end follow the documented scenarios.
 */
module Middleware {
  import opened Wrappers
  import opened Store
  import opened Options
  import opened Decision
  import opened Compensation

  /** The in-memory store's answer to `incr(k)` when its table is `hits` and its reset time `resetTime`. */
  function MemoryIncr(hits: map<string, nat>, resetTime: int): (incr: string -> Result<IncrReply>)
    ensures forall k :: incr(k).Ok? && incr(k).value.current >= 1 && incr(k).value.resetTime == Some(resetTime)
  {
    k => Ok(IncrReply(Count(hits, k) + 1, Some(resetTime)))
  }

  /**
   * `rateLimit(req, res, next)`. With the in-memory store the store is
   * incremented once, for the resolved key, exactly when the pipeline gets
   * that far; a custom store's answer is `customIncr`. When outcome
   * listeners are registered on an in-memory store they are returned.
   */
  method HandleRequest(limiter: Limiter, inp: RequestInputs, customIncr: string -> Result<IncrReply>)
    returns (h: Handled, listeners: Listeners?)
    modifies limiter.store.Footprint()
    ensures limiter.store.Custom? ==> h == Pipeline(limiter.settings, inp, customIncr)
    ensures limiter.store.InMemory? ==>
      var m := limiter.store.memory;
      && h == Pipeline(limiter.settings, inp, MemoryIncr(old(m.hits), old(m.resetTime)))
      && m.hits == (if h.storeKey.Some? then Bumped(old(m.hits), h.storeKey.value) else old(m.hits))
      && m.resetTime == old(m.resetTime)
    ensures listeners != null <==> h.listening && limiter.store.InMemory?
    ensures listeners != null ==>
      && fresh(listeners)
      && listeners.store == limiter.store.memory
      && listeners.key == h.storeKey.value
      && listeners.skipFailedRequests == limiter.settings.skipFailedRequests
      && listeners.skipSuccessfulRequests == limiter.settings.skipSuccessfulRequests
      && !listeners.decremented
  {
    listeners := null;
    var s := limiter.settings;
    if inp.skip.Err? {
      return Handled(Escaped(inp.skip.error), None, None, [], false, false), null;
    }
    if inp.skip.value {
      return Handled(Skipped, None, None, [], false, false), null;
    }
    if inp.key.Err? {
      return Handled(Forwarded(inp.key.error), None, None, [], false, false), null;
    }
    var key := inp.key.value;
    var reply: Result<IncrReply>;
    if limiter.store.InMemory? {
      var m := limiter.store.memory;
      var hit, reset := m.Incr(key);
      reply := Ok(IncrReply(hit, Some(reset)));
      assert reply == MemoryIncr(old(m.hits), old(m.resetTime))(key);
    } else {
      reply := customIncr(key);
    }
    if reply.Err? {
      return Handled(Forwarded(reply.error), Some(key), None, [], false, false), null;
    }
    var max := ResolveMax(s.max, inp.maxFromFunction);
    if max.Err? {
      return Handled(Forwarded(max.error), Some(key), None, [], false, false), null;
    }
    var current := reply.value.current;
    var info := MakeInfo(max.value, current, reply.value.resetTime);
    var headers := LegacyHeaders(s, info, inp.headersSent) + DraftHeaders(s, info, inp.headersSent, inp.nowMs);
    var listening := s.skipFailedRequests || s.skipSuccessfulRequests;
    if listening && limiter.store.InMemory? {
      listeners := new Listeners(limiter.store.memory, key, s.skipFailedRequests, s.skipSuccessfulRequests);
    }
    var reached := LimitReached(max.value, current);
    if reached && inp.onLimitReached.Err? {
      return Handled(Forwarded(inp.onLimitReached.error), Some(key), Some(info), headers, true, listening), listeners;
    }
    if Exceeded(max.value, current) {
      return Handled(Denied, Some(key), Some(info), headers + RetryAfter(s, inp.headersSent), reached, listening), listeners;
    }
    return Handled(Allowed, Some(key), Some(info), headers, false, listening), listeners;
  }

  /** `rateLimit.resetKey`: the store's `resetKey`, bound to it; a custom store's effect is its own. */
  method ResetKey(limiter: Limiter, key: string)
    modifies limiter.store.Footprint()
    ensures limiter.store.InMemory? ==>
      && limiter.store.memory.hits == old(limiter.store.memory.hits) - {key}
      && limiter.store.memory.resetTime == old(limiter.store.memory.resetTime)
  {
    if limiter.store.InMemory? {
      limiter.store.memory.ResetKey(key);
    }
  }

  /** `rateLimit.resetIp`: the same function as `resetKey`, kept for older callers. */
  method ResetIp(limiter: Limiter, key: string)
    modifies limiter.store.Footprint()
    ensures limiter.store.InMemory? ==>
      && limiter.store.memory.hits == old(limiter.store.memory.hits) - {key}
      && limiter.store.memory.resetTime == old(limiter.store.memory.resetTime)
  {
    ResetKey(limiter, key);
  }

  /** A request for key `key` that is not skipped and whose callbacks all succeed. */
  function PlainRequest(key: string, nowMs: int): RequestInputs {
    RequestInputs(Ok(false), Ok(key), Err("max is not a function"), Ok(()), false, nowMs)
  }

  /**
   * A plain request on the in-memory store under a fixed max: the record
   * holds the incremented count and the store's reset time, the request is
   * denied exactly when the count is over a non-zero max, and a denial with
   * legacy headers ends with Retry-After.
   */
  lemma PlainRequestOnMemoryStore(s: Settings, key: string, nowMs: int, hits: map<string, nat>, resetTime: int)
    requires s.max.Fixed?
    ensures var h := Pipeline(s, PlainRequest(key, nowMs), MemoryIncr(hits, resetTime));
      var current := Count(hits, key) + 1;
      && h.info == Some(MakeInfo(s.max.n, current, Some(resetTime)))
      && h.verdict == (if Exceeded(s.max.n, current) then Denied else Allowed)
      && h.limitReached == LimitReached(s.max.n, current)
      && (h.verdict == Denied && s.headers ==>
            |h.headers| > 0 && h.headers[|h.headers| - 1] == Header("Retry-After", CeilSeconds(s.windowMs)))
  {
  }

  /** A limiter built with the in-memory store at time 0 from `options`, whose merge gives `settings`. */
  method NewLimiter(options: map<string, Value>, settings: Settings) returns (limiter: Limiter)
    requires WellTyped(options) && "store" !in options
    requires forall name :: name in RemovedOptions ==> name !in options
    requires Resolve(Merge(options)) == settings
    ensures limiter.settings == settings && limiter.store.InMemory?
    ensures fresh(limiter.store.memory)
    ensures limiter.store.memory.hits == map[] && limiter.store.memory.resetTime == settings.windowMs
  {
    var r := RateLimit(options, 0);
    limiter := r.value;
  }

  /** One plain request on an in-memory limiter under a fixed max (the lemma above, run on the store). */
  method Hit(limiter: Limiter, key: string, nowMs: int) returns (h: Handled, listeners: Listeners?)
    requires limiter.store.InMemory? && limiter.settings.max.Fixed?
    modifies limiter.store.memory
    ensures var m := limiter.store.memory;
      var current := Count(old(m.hits), key) + 1;
      var max := limiter.settings.max.n;
      && m.hits == Bumped(old(m.hits), key) && m.resetTime == old(m.resetTime)
      && h.info == Some(MakeInfo(max, current, Some(m.resetTime)))
      && h.verdict == (if Exceeded(max, current) then Denied else Allowed)
      && h.limitReached == LimitReached(max, current)
      && (h.verdict == Denied && limiter.settings.headers ==>
            |h.headers| > 0 && h.headers[|h.headers| - 1] == Header("Retry-After", CeilSeconds(limiter.settings.windowMs)))
    ensures listeners != null <==> limiter.settings.skipFailedRequests || limiter.settings.skipSuccessfulRequests
    ensures listeners != null ==>
      && fresh(listeners)
      && listeners.store == limiter.store.memory && listeners.key == key
      && listeners.skipFailedRequests == limiter.settings.skipFailedRequests
      && listeners.skipSuccessfulRequests == limiter.settings.skipSuccessfulRequests
      && !listeners.decremented
  {
    var m := limiter.store.memory;
    PlainRequestOnMemoryStore(limiter.settings, key, nowMs, m.hits, m.resetTime);
    h, listeners := HandleRequest(limiter, PlainRequest(key, nowMs), _ => Err("unused"));
  }

  /** The limiter built at time 0 from `{windowMs: 1000, max: 2}`. */
  method OneSecondTwoHits() returns (limiter: Limiter)
    ensures limiter.settings == Settings(1000, Fixed(2), 429, true, false, false, false)
    ensures limiter.store.InMemory? && fresh(limiter.store.memory)
    ensures limiter.store.memory.hits == map[] && limiter.store.memory.resetTime == 1000
  {
    var options := map["windowMs" := Num(1000), "max" := Num(2)];
    var settings := Settings(1000, Fixed(2), 429, true, false, false, false);
    assert Resolve(Merge(options)) == settings;
    limiter := NewLimiter(options, settings);
  }

  /**
   * windowMs = 1000 and max = 2, three requests for one key in the same
   * window: the first two pass, the third is denied with Retry-After = 1 and
   * is the one that calls onLimitReached.
   */
  method ThreeRequestsInOneWindow() returns (first: Handled, second: Handled, third: Handled)
    ensures first.verdict == Allowed && first.info == Some(Info(2, 1, 1, Some(1000))) && !first.limitReached
    ensures second.verdict == Allowed && second.info == Some(Info(2, 2, 0, Some(1000))) && !second.limitReached
    ensures third.verdict == Denied && third.info == Some(Info(2, 3, 0, Some(1000))) && third.limitReached
    ensures |third.headers| > 0 && third.headers[|third.headers| - 1] == Header("Retry-After", 1)
  {
    var limiter := OneSecondTwoHits();
    var l;
    first, l := Hit(limiter, "A", 0);
    second, l := Hit(limiter, "A", 10);
    third, l := Hit(limiter, "A", 20);
  }

  /** The options `{skipFailedRequests, skipSuccessfulRequests}`. */
  function SkippingOptions(skipFailed: bool, skipSuccessful: bool): map<string, Value> {
    map["skipFailedRequests" := Bool(skipFailed), "skipSuccessfulRequests" := Bool(skipSuccessful)]
  }

  /** Those options are accepted: well typed, no store, no removed option. */
  lemma SkippingOptionsAccepted(skipFailed: bool, skipSuccessful: bool)
    ensures WellTyped(SkippingOptions(skipFailed, skipSuccessful))
    ensures "store" !in SkippingOptions(skipFailed, skipSuccessful)
    ensures forall name :: name in RemovedOptions ==> name !in SkippingOptions(skipFailed, skipSuccessful)
  {
  }

  /** Those options resolve to the defaults with the two skip settings replaced. */
  lemma SkippingOptionsResolve(skipFailed: bool, skipSuccessful: bool)
    ensures WellTyped(SkippingOptions(skipFailed, skipSuccessful))
    ensures Resolve(Merge(SkippingOptions(skipFailed, skipSuccessful)))
         == Settings(60000, Fixed(5), 429, true, false, skipFailed, skipSuccessful)
  {
    SkippingOptionsAccepted(skipFailed, skipSuccessful);
    CallerOverridesDefaults(SkippingOptions(skipFailed, skipSuccessful));
  }

  /** The limiter built at time 0 from `{skipFailedRequests, skipSuccessfulRequests}`. */
  method Skipping(skipFailed: bool, skipSuccessful: bool) returns (limiter: Limiter)
    ensures limiter.settings == Settings(60000, Fixed(5), 429, true, false, skipFailed, skipSuccessful)
    ensures limiter.store.InMemory? && fresh(limiter.store.memory)
    ensures limiter.store.memory.hits == map[]
  {
    SkippingOptionsAccepted(skipFailed, skipSuccessful);
    SkippingOptionsResolve(skipFailed, skipSuccessful);
    limiter := NewLimiter(SkippingOptions(skipFailed, skipSuccessful), Settings(60000, Fixed(5), 429, true, false, skipFailed, skipSuccessful));
  }

  /**
   * A limiter built from `{skipFailedRequests, skipSuccessfulRequests}` (one
   * of them on) and two requests for key "A": the store counts 2, and the
   * second request's listeners are fresh and unset.
   */
  method TwoRequests(skipFailed: bool, skipSuccessful: bool) returns (m: MemoryStore, l: Listeners)
    requires skipFailed || skipSuccessful
    ensures fresh(m) && fresh(l)
    ensures Count(m.hits, "A") == 2
    ensures l.store == m && l.key == "A" && !l.decremented
    ensures l.skipFailedRequests == skipFailed && l.skipSuccessfulRequests == skipSuccessful
  {
    var limiter := Skipping(skipFailed, skipSuccessful);
    m := limiter.store.memory;
    var h, listeners := Hit(limiter, "A", 0);
    h, listeners := Hit(limiter, "A", 0);
    l := listeners;
  }

  /**
   * With skipFailedRequests, a request answered with status 500 is uncounted
   * once, even when `close` (after finishing) and `error` follow: two
   * requests leave the count at 1, not 0.
   */
  method FailedRequestUncountedOnce() returns (count: nat)
    ensures count == 1
  {
    var m, l := TwoRequests(true, false);
    var events := [Finish(500), Close(true), Error];
    assert FailureSignal(events[0]);
    GuardedDecrementsAtMostOnce(true, events);
    l.Run(events);
    count := Count(m.hits, "A");
  }

  /**
   * With skipSuccessfulRequests, a request answered with status 200 and then
   * closed is uncounted: two requests leave the count at 1.
   */
  method SuccessfulRequestUncounted() returns (count: nat)
    ensures count == 1
  {
    var m, l := TwoRequests(false, true);
    var events := [Finish(200), Close(true)];
    SuccessDecrementsCountsSuccesses([Finish(200)], [Close(true)]);
    assert events == [Finish(200)] + [Close(true)];
    l.Run(events);
    count := Count(m.hits, "A");
  }

  /** A custom store that fails on `incr`: the error reaches `next(e)`, with no record and no header. */
  method StoreFailureIsForwarded() returns (h: Handled)
    ensures h.verdict == Forwarded("store unavailable") && h.info.None? && h.headers == []
  {
    var options := map["store" := StoreObject(StoreShape(true, true, true))];
    var r := RateLimit(options, 0);
    assert r.Ok?;
    var l;
    h, l := HandleRequest(r.value, PlainRequest("A", 0), _ => Err("store unavailable"));
  }
}

=== FILE: options.dfy ===
/**
 * Construction of the limiter: the caller's options object merged over the
 * defaults, the default store created when none is given, the store's shape
 * checked and the options removed in version 3 refused.
 */
module Options {
  import opened Wrappers
  import opened Store

  /** Which of the store interface's operations a store object has. */
  datatype StoreShape = StoreShape(hasIncr: bool, hasDecrement: bool, hasResetKey: bool)

  /** A value held by a key of the options object. */
  datatype Value =
    | Num(n: int)
    | Bool(b: bool)
    | Text(s: string)
    | Function
    | StoreObject(shape: StoreShape)

  /** The value types the options interface declares for the keys it knows. */
  predicate WellTyped(o: map<string, Value>) {
    && ("windowMs" in o ==> o["windowMs"].Num?)
    && ("max" in o ==> o["max"].Num? || o["max"].Function?)
    && ("statusCode" in o ==> o["statusCode"].Num?)
    && ("headers" in o ==> o["headers"].Bool?)
    && ("draft_polli_ratelimit_headers" in o ==> o["draft_polli_ratelimit_headers"].Bool?)
    && ("skipFailedRequests" in o ==> o["skipFailedRequests"].Bool?)
    && ("skipSuccessfulRequests" in o ==> o["skipSuccessfulRequests"].Bool?)
    && ("keyGenerator" in o ==> o["keyGenerator"].Function?)
    && ("skip" in o ==> o["skip"].Function?)
    && ("handler" in o ==> o["handler"].Function?)
    && ("onLimitReached" in o ==> o["onLimitReached"].Function?)
    && ("store" in o ==> o["store"].StoreObject?)
  }

  const DefaultMessage: string := "Too many requests, please try again later."

  /** The defaults every option falls back to. */
  function Defaults(): (d: map<string, Value>)
    ensures WellTyped(d)
    ensures "store" !in d
  {
    map[
      "windowMs" := Num(60000),
      "max" := Num(5),
      "message" := Text(DefaultMessage),
      "statusCode" := Num(429),
      "headers" := Bool(true),
      "draft_polli_ratelimit_headers" := Bool(false),
      "skipFailedRequests" := Bool(false),
      "skipSuccessfulRequests" := Bool(false),
      "keyGenerator" := Function,
      "skip" := Function,
      "handler" := Function,
      "onLimitReached" := Function
    ]
  }

  /** `Object.assign(defaults, options)`: every key the caller gives wins, every other default stays. */
  function Merge(options: map<string, Value>): (m: map<string, Value>)
    requires WellTyped(options)
    ensures WellTyped(m)
    ensures m.Keys == Defaults().Keys + options.Keys
    ensures forall k :: k in options ==> m[k] == options[k]
    ensures forall k :: k in Defaults() && k !in options ==> m[k] == Defaults()[k]
  {
    Defaults() + options
  }

  /** The maximum: a number fixed at construction, or a function resolved per request. */
  datatype MaxSetting = Fixed(n: int) | PerRequest

  /** The resolved options the per-request logic reads. */
  datatype Settings = Settings(
    windowMs: int,
    max: MaxSetting,
    statusCode: int,
    headers: bool,
    draftHeaders: bool,
    skipFailedRequests: bool,
    skipSuccessfulRequests: bool)

  /** The settings read from a merged options object. */
  function Resolve(m: map<string, Value>): (s: Settings)
    requires WellTyped(m) && Defaults().Keys <= m.Keys
    ensures s.max == PerRequest <==> m["max"].Function?
    ensures s.max.Fixed? ==> s.max.n == m["max"].n
  {
    Settings(
      m["windowMs"].n,
      if m["max"].Num? then Fixed(m["max"].n) else PerRequest,
      m["statusCode"].n,
      m["headers"].b,
      m["draft_polli_ratelimit_headers"].b,
      m["skipFailedRequests"].b,
      m["skipSuccessfulRequests"].b)
  }

  /** With no options at all, the defaults: a one-minute window, five hits, status 429, legacy headers on. */
  lemma DefaultSettings()
    ensures Resolve(Merge(map[])) == Settings(60000, Fixed(5), 429, true, false, false, false)
  {
  }

  /** A caller's value overrides the default and a missing one falls back to it, option by option. */
  lemma CallerOverridesDefaults(options: map<string, Value>)
    requires WellTyped(options)
    ensures var s := Resolve(Merge(options));
      && s.windowMs == (if "windowMs" in options then options["windowMs"].n else 60000)
      && s.max == (if "max" !in options then Fixed(5)
                   else if options["max"].Num? then Fixed(options["max"].n) else PerRequest)
      && s.statusCode == (if "statusCode" in options then options["statusCode"].n else 429)
      && s.headers == (if "headers" in options then options["headers"].b else true)
      && s.draftHeaders == ("draft_polli_ratelimit_headers" in options && options["draft_polli_ratelimit_headers"].b)
      && s.skipFailedRequests == ("skipFailedRequests" in options && options["skipFailedRequests"].b)
      && s.skipSuccessfulRequests == ("skipSuccessfulRequests" in options && options["skipSuccessfulRequests"].b)
  {
    var d, m := Defaults(), Merge(options);
    assert d["windowMs"] == Num(60000) && d["max"] == Num(5) && d["statusCode"] == Num(429);
    assert d["headers"] == Bool(true) && d["draft_polli_ratelimit_headers"] == Bool(false);
    assert d["skipFailedRequests"] == Bool(false) && d["skipSuccessfulRequests"] == Bool(false);
  }

  /**
   * The store check: `incr` and `resetKey` always, `decrement` only when
   * failed requests are uncounted.
   */
  predicate StoreIsValid(shape: StoreShape, skipFailedRequests: bool): (ok: bool)
    ensures ok ==> shape.hasIncr && shape.hasResetKey
    ensures ok && skipFailedRequests ==> shape.hasDecrement
    ensures shape.hasIncr && shape.hasResetKey && shape.hasDecrement ==> ok
    ensures !skipFailedRequests && shape.hasIncr && shape.hasResetKey ==> ok
  {
    shape.hasIncr && shape.hasResetKey && (!skipFailedRequests || shape.hasDecrement)
  }

  /** The in-memory store has every operation, so it passes the check whatever the options. */
  const MemoryStoreShape: StoreShape := StoreShape(true, true, true)

  /** A store without `decrement` is refused only when failed requests are to be uncounted. */
  lemma MissingDecrementRefusedOnlyForFailedRequests(skipFailedRequests: bool)
    ensures StoreIsValid(StoreShape(true, false, true), skipFailedRequests) <==> !skipFailedRequests
  {
  }

  const InvalidStore: string := "The store is not valid."

  /** The options removed in version 3, in the order they are checked. */
  const RemovedOptions: seq<string> := ["global", "delayMs", "delayAfter"]

  function RemovedMessage(name: string): (message: string)
    ensures |message| == |name| + 51
    ensures message[4..4 + |name|] == name
  {
    "The " + name + " option was removed from express-rate-limit v3."
  }

  /** Different removed options give different messages: the message names which one was given. */
  lemma RemovedMessageNamesOption(a: string, b: string)
    ensures RemovedMessage(a) == RemovedMessage(b) ==> a == b
  {
    if RemovedMessage(a) == RemovedMessage(b) {
      assert RemovedMessage(a)[4..4 + |a|] == RemovedMessage(b)[4..4 + |b|];
    }
  }

  /**
   * The removed option construction reports: the first of RemovedOptions
   * present as a key of `options`, whatever its value (0 and false included).
   */
  method FindRemovedOption(options: map<string, Value>) returns (found: Option<string>)
    ensures found.None? <==> forall name :: name in RemovedOptions ==> name !in options
    ensures found.Some? ==>
      && found.value in options
      && exists i :: 0 <= i < |RemovedOptions| && RemovedOptions[i] == found.value
           && forall j :: 0 <= j < i ==> RemovedOptions[j] !in options
  {
    var i := 0;
    while i < |RemovedOptions|
      invariant 0 <= i <= |RemovedOptions|
      invariant forall j :: 0 <= j < i ==> RemovedOptions[j] !in options
    {
      if RemovedOptions[i] in options {
        return Some(RemovedOptions[i]);
      }
      i := i + 1;
    }
    return None;
  }

  /**
   * Neither the store nor a removed option has a default, so each is present
   * after the merge exactly when the caller gave it.
   */
  lemma MergeKeepsCallerKeys(options: map<string, Value>)
    requires WellTyped(options)
    ensures "store" in Merge(options) <==> "store" in options
    ensures "store" in options ==> Merge(options)["store"] == options["store"]
    ensures forall name :: name in RemovedOptions ==> name != "store" && (name in Merge(options) <==> name in options)
  {
  }

  /** The store the limiter uses: the in-memory one it created, or the caller's, known by its shape only. */
  datatype StoreChoice = InMemory(memory: MemoryStore) | Custom(shape: StoreShape) {
    function Footprint(): set<object> {
      if InMemory? then {memory} else {}
    }
  }

  /** A constructed limiter: its resolved settings and its store. */
  datatype Limiter = Limiter(settings: Settings, store: StoreChoice)

  /** The shape of the store construction ends up with. */
  function ChosenShape(options: map<string, Value>): StoreShape
    requires WellTyped(options)
  {
    if "store" in options then options["store"].shape else MemoryStoreShape
  }

  /**
   * The two construction-time checks, in the order they run on the merged
   * options `merged` whose store has shape `shape`: the store first, then
   * the removed options.
   */
  method CheckOptions(shape: StoreShape, skipFailedRequests: bool, merged: map<string, Value>)
    returns (error: Option<string>)
    ensures error.None? <==> StoreIsValid(shape, skipFailedRequests)
                             && forall name :: name in RemovedOptions ==> name !in merged
    ensures !StoreIsValid(shape, skipFailedRequests) ==> error == Some(InvalidStore)
    ensures StoreIsValid(shape, skipFailedRequests) && error.Some? ==>
      exists i :: 0 <= i < |RemovedOptions| && RemovedOptions[i] in merged
        && (forall j :: 0 <= j < i ==> RemovedOptions[j] !in merged)
        && error.value == RemovedMessage(RemovedOptions[i])
  {
    if !StoreIsValid(shape, skipFailedRequests) {
      return Some(InvalidStore);
    }
    var removed := FindRemovedOption(merged);
    if removed.Some? {
      return Some(RemovedMessage(removed.value));
    }
    return None;
  }

  /**
   * `RateLimit(options)`: merges the options over the defaults, creates an
   * in-memory store over the merged window when none is given, then refuses
   * an invalid store and, after that, any removed option.
   */
  method RateLimit(options: map<string, Value>, now: int) returns (r: Result<Limiter>)
    requires WellTyped(options)
    ensures var skipFailed := Resolve(Merge(options)).skipFailedRequests;
      r.Ok? <==> StoreIsValid(ChosenShape(options), skipFailed)
                 && forall name :: name in RemovedOptions ==> name !in options
    ensures var skipFailed := Resolve(Merge(options)).skipFailedRequests;
      !StoreIsValid(ChosenShape(options), skipFailed) ==> r == Err(InvalidStore)
    ensures var skipFailed := Resolve(Merge(options)).skipFailedRequests;
      StoreIsValid(ChosenShape(options), skipFailed) && r.Err? ==>
        exists i :: 0 <= i < |RemovedOptions| && RemovedOptions[i] in options
          && (forall j :: 0 <= j < i ==> RemovedOptions[j] !in options)
          && r.error == RemovedMessage(RemovedOptions[i])
    ensures r.Ok? ==> r.value.settings == Resolve(Merge(options))
    ensures r.Ok? && "store" in options ==> r.value.store == Custom(options["store"].shape)
    ensures r.Ok? && "store" !in options ==>
      && r.value.store.InMemory?
      && fresh(r.value.store.memory)
      && r.value.store.memory.hits == map[]
      && r.value.store.memory.windowMs == r.value.settings.windowMs
      && r.value.store.memory.resetTime == NextResetTime(r.value.settings.windowMs, now)
  {
    var merged := Merge(options);
    var settings := Resolve(merged);
    MergeKeepsCallerKeys(options);
    var store: StoreChoice;
    if "store" in merged {
      store := Custom(merged["store"].shape);
    } else {
      var memory := new MemoryStore(merged["windowMs"].n, now);
      store := InMemory(memory);
      merged := merged["store" := StoreObject(MemoryStoreShape)];
    }
    assert forall j :: 0 <= j < |RemovedOptions| ==> (RemovedOptions[j] in merged <==> RemovedOptions[j] in options);
    var error := CheckOptions(merged["store"].shape, settings.skipFailedRequests, merged);
    if error.Some? {
      return Err(error.value);
    }
    return Ok(Limiter(settings, store));
  }
}

=== FILE: prototype_keys.dfy ===
/**
 * The in-memory store's table as the code writes it: a plain `{}` object,
 * whose reads fall back to Object.prototype. For a key that names an
 * inherited member the table does not behave like a map: "__proto__" is
 * never counted (so never limited), and "constructor", "toString" and the
 * like report NaN on their first hit of each window. The rest of the model
 * uses a true map (Store.MemoryStore), which behaves the same on every
 * other key.
 */
module PrototypeKeys {
  import opened Store
  import Window
  import Decision

  /** A property read on the table: undefined, a number, NaN, or something inherited from Object.prototype. */
  datatype Slot = Undefined | Number(n: int) | NaN | Inherited

  /** The members every plain object inherits from Object.prototype (besides the `__proto__` accessor). */
  const ObjectPrototypeMembers: set<string> := {
    "constructor", "hasOwnProperty", "isPrototypeOf", "propertyIsEnumerable", "toLocaleString",
    "toString", "valueOf", "__defineGetter__", "__defineSetter__", "__lookupGetter__", "__lookupSetter__"
  }

  /** A key the prototype chain does not interfere with. */
  predicate Ordinary(key: string) {
    key != "__proto__" && key !in ObjectPrototypeMembers
  }

  /** `hits[key]` on an object whose own properties are `own`; `__proto__` reads the prototype itself. */
  function Get(own: map<string, Slot>, key: string): Slot {
    if key == "__proto__" then Inherited
    else if key in own then own[key]
    else if key in ObjectPrototypeMembers then Inherited
    else Undefined
  }

  /** `hits[key] = v`; the `__proto__` setter ignores anything that is not an object. */
  function Put(own: map<string, Slot>, key: string, v: Slot): map<string, Slot> {
    if key == "__proto__" then own else own[key := v]
  }

  /** JavaScript truthiness: a non-zero number, or an inherited function or object. */
  predicate Truthy(v: Slot) {
    (v.Number? && v.n != 0) || v.Inherited?
  }

  /** `++` on a slot: a function or object converts to NaN, and NaN stays NaN. */
  function PlusOne(v: Slot): Slot {
    if v.Number? then Number(v.n + 1) else NaN
  }

  /** `incr` as written: the new own properties and the value handed to the callback. */
  function IncrAsWritten(own: map<string, Slot>, key: string): (r: (map<string, Slot>, Slot))
    ensures r.0.Keys <= own.Keys + {key}
    ensures forall k :: k in own && k != key ==> k in r.0 && r.0[k] == own[k]
    ensures r.1 == Get(r.0, key)
  {
    var before := Get(own, key);
    var own' := if Truthy(before) then Put(own, key, PlusOne(before)) else Put(own, key, Number(1));
    (own', Get(own', key))
  }

  /** `--` on a slot: a function or object converts to NaN, and NaN stays NaN. */
  function MinusOne(v: Slot): Slot {
    if v.Number? then Number(v.n - 1) else NaN
  }

  /** `decrement` as written: only a truthy slot is decremented. */
  function DecrementAsWritten(own: map<string, Slot>, key: string): (r: map<string, Slot>)
    ensures r.Keys <= own.Keys + {key}
    ensures forall k :: k in own && k != key ==> k in r && r[k] == own[k]
    ensures !Truthy(Get(own, key)) ==> r == own
  {
    var before := Get(own, key);
    if Truthy(before) then Put(own, key, MinusOne(before)) else own
  }

  /** `resetKey` as written: `delete` removes an own property only; what is inherited stays readable. */
  function ResetKeyAsWritten(own: map<string, Slot>, key: string): (r: map<string, Slot>)
    ensures key !in r
    ensures forall k :: k in own && k != key ==> k in r && r[k] == own[k]
    ensures key in ObjectPrototypeMembers ==> Get(r, key) == Inherited
  {
    own - {key}
  }

  /** `max && current > max` for what the callback reported: NaN and objects compare false. */
  predicate ExceededAsWritten(max: int, current: Slot): (exceeded: bool)
    ensures exceeded ==> current.Number?
    ensures current.Number? ==> (exceeded <==> Decision.Exceeded(max, current.n))
  {
    max != 0 && current.Number? && current.n > max
  }

  /** What `n` successive `incr(key)` calls report, as written. */
  function ReportsAsWritten(own: map<string, Slot>, key: string, n: nat): seq<Slot>
    decreases n
  {
    if n == 0 then []
    else
      var (own', reported) := IncrAsWritten(own, key);
      [reported] + ReportsAsWritten(own', key, n - 1)
  }

  /**
   * "__proto__": the table is left as it was, and however many requests
   * arrive, each reports the prototype object and none is ever denied.
   */
  lemma {:induction false} ProtoKeyNeverDenied(own: map<string, Slot>, n: nat, max: int)
    ensures IncrAsWritten(own, "__proto__").0 == own
    ensures |ReportsAsWritten(own, "__proto__", n)| == n
    ensures forall i :: 0 <= i < n ==>
      ReportsAsWritten(own, "__proto__", n)[i] == Inherited
      && !ExceededAsWritten(max, ReportsAsWritten(own, "__proto__", n)[i])
    decreases n
  {
    if n > 0 {
      assert IncrAsWritten(own, "__proto__") == (own, Inherited);
      ProtoKeyNeverDenied(own, n - 1, max);
    }
  }

  /** "constructor" in a fresh window: the first hit reports NaN, not 1; counting starts only at the second. */
  lemma InheritedNameFirstReportIsNaN()
    ensures ReportsAsWritten(map[], "constructor", 3) == [NaN, Number(1), Number(2)]
  {
  }

  /** The own properties that mirror a table of counts. */
  function Mirror(hits: map<string, nat>): map<string, Slot> {
    map k | k in hits :: Number(hits[k])
  }

  /** `incr` as written on the mirror of a table is `Bumped` on the table, for an ordinary key. */
  lemma IncrAgrees(hits: map<string, nat>, key: string)
    requires Ordinary(key)
    ensures IncrAsWritten(Mirror(hits), key) == (Mirror(Bumped(hits, key)), Number(Count(hits, key) + 1))
  {
    var b := Bumped(hits, key);
    assert Mirror(b).Keys == Mirror(hits).Keys + {key};
    assert IncrAsWritten(Mirror(hits), key).0 == Mirror(b);
  }

  /** `decrement` as written on the mirror of a table is `Lowered` on the table, for an ordinary key. */
  lemma DecrementAgrees(hits: map<string, nat>, key: string)
    requires Ordinary(key)
    ensures DecrementAsWritten(Mirror(hits), key) == Mirror(Lowered(hits, key))
  {
    assert Mirror(Lowered(hits, key)).Keys == Mirror(hits).Keys;
  }

  /**
   * On an ordinary key the object behaves like the map the rest of the
   * model uses: `incr`, `decrement` and `resetKey` as written map the mirror
   * of a table to the mirror of Bumped, Lowered and the key's removal.
   */
  lemma OrdinaryKeysAgree(hits: map<string, nat>, key: string)
    requires Ordinary(key)
    ensures IncrAsWritten(Mirror(hits), key) == (Mirror(Bumped(hits, key)), Number(Count(hits, key) + 1))
    ensures DecrementAsWritten(Mirror(hits), key) == Mirror(Lowered(hits, key))
    ensures ResetKeyAsWritten(Mirror(hits), key) == Mirror(hits - {key})
  {
    IncrAgrees(hits, key);
    DecrementAgrees(hits, key);
    assert Mirror(hits - {key}).Keys == Mirror(hits).Keys - {key};
  }

  /**
   * "constructor" in a fresh window: `decrement` turns the inherited
   * function into an own NaN, and `resetKey` afterwards brings the inherited
   * member back, where a map would hold nothing for the key throughout.
   */
  lemma InheritedNameDecrementLeavesNaN()
    ensures DecrementAsWritten(map[], "constructor") == map["constructor" := NaN]
    ensures Get(ResetKeyAsWritten(map["constructor" := NaN], "constructor"), "constructor") == Inherited
    ensures Lowered(map[], "constructor") == map[]
  {
  }

  /** With the table as a map, "__proto__" is counted like any key: request max + 1 is denied. */
  lemma CorrectedStoreDeniesProtoKey(max: nat)
    requires max > 0
    ensures var reports := Window.Reports(map[], Window.Repeat("__proto__", max + 1));
      |reports| == max + 1 && reports[max].hit == max + 1 && reports[max].hit > max
  {
    Window.NthIncrReportsN(map[], "__proto__", max + 1);
  }
}

=== FILE: window.dfy ===
/**
 * What the in-memory store reports over a run of operations inside one
 * window (no `resetAll` in between): the counts `incr` hands back, and so
 * when the limiter's `current == max + 1` test can be met.
 */
module Window {
  import opened Store
  import Decision

  /** One call on the store. */
  datatype Op = Incr(key: string) | Decrement(key: string) | ResetKey(key: string)

  /** What one `incr` call reported: the key and its new count. */
  datatype Report = Report(key: string, hit: nat)

  /** The reports of the `incr` calls in `ops`, in order. */
  function Reports(hits: map<string, nat>, ops: seq<Op>): (reports: seq<Report>)
    ensures |reports| <= |ops|
    ensures forall i :: 0 <= i < |reports| ==> reports[i].hit >= 1
    decreases |ops|
  {
    if ops == [] then []
    else
      match ops[0]
      case Incr(k) => [Report(k, Count(Bumped(hits, k), k))] + Reports(Bumped(hits, k), ops[1..])
      case Decrement(k) => Reports(Lowered(hits, k), ops[1..])
      case ResetKey(k) => Reports(hits - {k}, ops[1..])
  }

  /** Only increments: no compensating decrement and no single-key reset. */
  predicate IncrOnly(ops: seq<Op>) {
    forall i :: 0 <= i < |ops| ==> ops[i].Incr?
  }

  /** With increments only, there is one report per call, for the key of that call. */
  lemma {:induction false} ReportsMatchCalls(hits: map<string, nat>, ops: seq<Op>)
    requires IncrOnly(ops)
    ensures |Reports(hits, ops)| == |ops|
    ensures forall i :: 0 <= i < |ops| ==> Reports(hits, ops)[i].key == ops[i].key
    decreases |ops|
  {
    if ops != [] {
      var k := ops[0].key;
      assert IncrOnly(ops[1..]) by {
        forall i | 0 <= i < |ops[1..]| ensures ops[1..][i].Incr? {
          assert ops[1..][i] == ops[i + 1];
        }
      }
      ReportsMatchCalls(Bumped(hits, k), ops[1..]);
    }
  }

  /** With increments only, every reported count is above the count the key had at the start. */
  lemma {:induction false} ReportsExceedStart(hits: map<string, nat>, ops: seq<Op>, i: nat)
    requires IncrOnly(ops) && i < |ops|
    ensures |Reports(hits, ops)| == |ops|
    ensures Reports(hits, ops)[i].hit > Count(hits, ops[i].key)
    decreases |ops|
  {
    ReportsMatchCalls(hits, ops);
    var k := ops[0].key;
    if i > 0 {
      assert IncrOnly(ops[1..]) by {
        forall j | 0 <= j < |ops[1..]| ensures ops[1..][j].Incr? {
          assert ops[1..][j] == ops[j + 1];
        }
      }
      ReportsExceedStart(Bumped(hits, k), ops[1..], i - 1);
      assert ops[1..][i - 1] == ops[i];
    }
  }

  /**
   * With increments only, the counts reported for one key strictly increase:
   * no lost update and no repeat within a window.
   */
  lemma {:induction false} ReportsIncrease(hits: map<string, nat>, ops: seq<Op>, i: nat, j: nat)
    requires IncrOnly(ops) && i < j < |ops| && ops[i].key == ops[j].key
    ensures |Reports(hits, ops)| == |ops|
    ensures Reports(hits, ops)[i].hit < Reports(hits, ops)[j].hit
    decreases |ops|
  {
    ReportsMatchCalls(hits, ops);
    var k := ops[0].key;
    assert IncrOnly(ops[1..]) by {
      forall m | 0 <= m < |ops[1..]| ensures ops[1..][m].Incr? {
        assert ops[1..][m] == ops[m + 1];
      }
    }
    assert ops[1..][j - 1] == ops[j];
    if i == 0 {
      ReportsExceedStart(Bumped(hits, k), ops[1..], j - 1);
    } else {
      assert ops[1..][i - 1] == ops[i];
      ReportsIncrease(Bumped(hits, k), ops[1..], i - 1, j - 1);
    }
  }

  /**
   * `onLimitReached` runs when the reported count is exactly `max + 1`; with
   * increments only and a max that is the same for every request (a number,
   * or a function that always returns the same value), that happens for at
   * most one call per key per window.
   */
  lemma LimitReachedAtMostOnce(hits: map<string, nat>, ops: seq<Op>, max: int, i: nat, j: nat)
    requires IncrOnly(ops) && i < j < |ops| && ops[i].key == ops[j].key
    ensures |Reports(hits, ops)| == |ops|
    ensures Reports(hits, ops)[i].hit == max + 1 ==> Reports(hits, ops)[j].hit != max + 1
  {
    ReportsIncrease(hits, ops, i, j);
  }

  /** `n` calls of `incr(key)`. */
  function Repeat(key: string, n: nat): (ops: seq<Op>)
    ensures |ops| == n && IncrOnly(ops)
    ensures forall i :: 0 <= i < n ==> ops[i] == Incr(key)
  {
    seq(n, _ => Incr(key))
  }

  /** For a key not yet counted, the n-th of n successive increments reports n. */
  lemma {:induction false} NthIncrReportsN(hits: map<string, nat>, key: string, n: nat)
    requires Count(hits, key) == 0
    ensures |Reports(hits, Repeat(key, n))| == n
    ensures forall i :: 0 <= i < n ==> Reports(hits, Repeat(key, n))[i] == Report(key, i + 1)
  {
    ReportsMatchCalls(hits, Repeat(key, n));
    if n > 0 {
      NthIncrReportsNFrom(hits, key, n, 0);
    }
  }

  /** Helper: starting from count `c`, the i-th report of a run of increments is `c + i + 1`. */
  lemma {:induction false} NthIncrReportsNFrom(hits: map<string, nat>, key: string, n: nat, c: nat)
    requires Count(hits, key) == c
    ensures |Reports(hits, Repeat(key, n))| == n
    ensures forall i :: 0 <= i < n ==> Reports(hits, Repeat(key, n))[i] == Report(key, c + i + 1)
    decreases n
  {
    ReportsMatchCalls(hits, Repeat(key, n));
    if n > 0 {
      var ops := Repeat(key, n);
      assert ops[1..] == Repeat(key, n - 1);
      NthIncrReportsNFrom(Bumped(hits, key), key, n - 1, c + 1);
      assert Reports(hits, ops) == [Report(key, c + 1)] + Reports(Bumped(hits, key), Repeat(key, n - 1));
    }
  }

  /**
   * A `max` function is asked again on every request, and each request is
   * tested against its own answer. If the answer for the request after the
   * first is one below that request's count (2 for the third hit, 3 for the
   * fourth, ...), every one of those requests reaches the limit, so
   * `onLimitReached` runs again and again in one window.
   */
  lemma VaryingMaxReachesLimitEachTime(key: string, n: nat)
    ensures |Reports(map[], Repeat(key, n))| == n
    ensures forall i :: 1 <= i < n ==> Decision.LimitReached(i, Reports(map[], Repeat(key, n))[i].hit)
  {
    NthIncrReportsN(map[], key, n);
  }

  /**
   * A compensating decrement between two increments lets the same count be
   * reported twice: with max = 2, three hits reach 3, a failed (denied)
   * request is uncounted, and the next hit reports 3 again.
   */
  lemma CompensationRepeatsLimitCount()
    ensures Reports(map[], [Incr("a"), Incr("a"), Incr("a"), Decrement("a"), Incr("a")])
         == [Report("a", 1), Report("a", 2), Report("a", 3), Report("a", 3)]
  {
  }
}

=== FILE: wrappers.dfy ===
/** Failure-carrying values shared by the other modules. */
module Wrappers {

  /** A value that may be missing (a JavaScript `undefined`). */
  datatype Option<+T> = None | Some(value: T)

  /** The outcome of a step that may throw; the thrown value is kept as text. */
  datatype Result<+T> = Ok(value: T) | Err(error: string)
}
